=== FILE: README.md ===
# SpotDemo zoom transition, modelled in Dafny

SpotDemo is an iOS demo app. A menu screen shows five icons (two cities and
three social networks) in a collection view, drawn from a catalogue of six. Tapping one pushes a detail screen with a custom
navigation transition: the icon's coloured circle zooms up fifteen-fold to
fill the screen, the menu shrinks and fades, and the detail screen's labels
slide in. Popping plays the same zoom backwards.

This project models the bookkeeping of that transition as pure steps over a
store of view records. It also models the two participating screens' parts
of the `ZoomingIconViewController` contract.

- `ViewTree` (view_tree.dfy): view records with `hidden`, `transform`,
  `alpha`, `backgroundColor`, centre, bounds and image. The store maps nodes
  to records. The animation container holds an ordered list of children,
  back to front. `addSubview` takes the view out of that list if present and
  appends it. `removeFromSuperview` takes it out.
- `ZoomingIconTransition` (transition.dfy) covers the transition itself:
  - resolving the roles and phases from the navigation operation;
  - fetching the four participant views;
  - the stand-ins (the colored-view snapshot and the image copy) and the
    stacking of the container;
  - `configureViewsForState`;
  - the pre phase, the animation collapsed to its end state, and the
    completion block;
  - `transitionDuration` and the navigation-controller delegate.
- `ZoomingIconViewController` (participant.dfy): the protocol, dispatched
  over the two conforming screens and a stand-in for any other controller.
- `MenuViewController` (menu.dfy) covers the menu screen:
  - the sections and the catalogue;
  - the flat-index loop shared by cell configuration and selection;
  - the section insets;
  - the participant accessors, which trap when the selected cell is not on
    screen.
- `DetailViewController` (detail.dfy): `setupState`, the label hook's
  animation, the accessors and `viewDidLoad`.
- `TransitionLaws` (transition_laws.dfy): a push followed by the matching
  pop, and a pop followed by the matching push.

Modelling choices:

- Coordinate conversion (`convertRect`, `convertPoint`) is a parameter of
  type `Space`. It is never interpreted.
- The spring animation is one atomic jump to the post phase, followed by
  exactly one completion call. The host's cancellation is a boolean input.
- Each Swift `assert` and each force unwrap of a nil view becomes
  `Abort.Missing`. A trapping force cast inside the menu's accessors becomes
  `Abort.Crashed`. Either names the role and the part it concerns, and both
  happen before anything in the store changes. Both image accessors run
  before either image view is checked, and the colored accessors only once
  both image views are there, so the abort reported is the first trapping
  accessor, else the first nil view, image views before colored views and
  background before foreground.
- The zoom animation starts with delay 0
  (SpotDemo/ZoomingIconTransition.swift line 160). The 0.2-second delay
  belongs only to the detail screen's label animation on a push
  (SpotDemo/DetailViewController.swift line 69), although the comment at
  lines 63-64 speaks of no delay on a push. The model follows the code.

## Model

| member | source | states |
|---|---|---|
| ZoomingIconTransition.ZoomAndLabelTiming | SpotDemo/ZoomingIconTransition.swift:75-77 | The zoom lasts 0.6 seconds, as long as the label animation, for every operation. The zoom starts at once. The labels start later than the zoom exactly on a push. |
| ZoomingIconTransition.ResolveRoles | SpotDemo/ZoomingIconTransition.swift:87-93 | The background is `from` and the foreground is `to`, except on a pop, where they swap. The navigation operation `.None` (`NoOperation`) behaves like a push. |
| ZoomingIconTransition.Phases | SpotDemo/ZoomingIconTransition.swift:142-148 | The post phase is always the opposite of the pre phase. The pre phase is Initial exactly when the operation is not a pop. |
| ZoomingIconTransition.Fetch | SpotDemo/ZoomingIconTransition.swift:96-113 | Fetching succeeds iff all four accessors yield a view, and then returns exactly those four views. On failure the abort names a role and part whose accessor trapped (`Crashed`) or gave nil (`Missing`), and no failure that the source meets earlier is present: image accessors' traps, then nil image views, then colored accessors' traps, then nil colored views, background before foreground in each. A colored-view abort happens only when both image views were found. |
| ZoomingIconTransition.Stacked | SpotDemo/ZoomingIconTransition.swift:118-136 | After the background root is added once for the snapshot and the four views are added in paint order, the container ends with background root, colored stand-in, foreground root, image stand-in. Each occurs once, and the other children keep their order below. |
| ZoomingIconTransition.StackedOrder | SpotDemo/ZoomingIconTransition.swift:133-136 | The repeated `addSubview` of the background root leaves no duplicate. A duplicate-free container stays duplicate-free. |
| ZoomingIconTransition.UnstackedOrder | SpotDemo/ZoomingIconTransition.swift:169-171 | Removing both stand-ins leaves the two roots on top, background below foreground. |
| ZoomingIconTransition.HideAll | SpotDemo/ZoomingIconTransition.swift:125-129 | Each of the four participant views gets the given `hidden` value and changes in nothing else. Every other view, the keys, the children and the container colour are unchanged. |
| ZoomingIconTransition.SnapshotOf | SpotDemo/ZoomingIconTransition.swift:119 | The colored stand-in is a visible, untransformed, opaque copy with the view's colour and size. |
| ZoomingIconTransition.ImageCopyOf | SpotDemo/ZoomingIconTransition.swift:121-122 | The image stand-in is a visible, untransformed, opaque view of the same image. |
| ZoomingIconTransition.Setup | SpotDemo/ZoomingIconTransition.swift:115-140 | Setup adds exactly the two stand-ins, made from the background's views, and paints the container white. It stacks the children in paint order and returns the foreground root's original colour. |
| ZoomingIconTransition.SetupRealViews | SpotDemo/ZoomingIconTransition.swift:124-140 | Setup changes a real view only by hiding the four participants and clearing the foreground root's colour. |
| ZoomingIconTransition.Configure | SpotDemo/ZoomingIconTransition.swift:46-72 | Initial: the background root has identity and alpha 1, the colored stand-in is untransformed on the converted frame of the background colored view, and the image stand-in is on the converted frame of the background image view. Final: the background root has scale 0.8 and alpha 0, the colored stand-in is scaled 15 and centred on the foreground image view's converted centre, and the image stand-in is on that view's converted frame. The stand-ins keep their visibility, alpha, colour and image. No other real view changes, and the background root changes only in transform and alpha. |
| ZoomingIconTransition.Prepare | SpotDemo/ZoomingIconTransition.swift:115-154 | After setup, the pre phase and both hooks, the stand-ins show the pre phase measured on the original frames. Both stand-ins are visible and opaque, with the background colored view's colour and the background image view's image. When the pre phase is Final (on a pop), the colored stand-in keeps the size of the background colored view. The container is stacked and white. The colour is saved. Every real view except the background root is exactly as setup left it. The background root differs from that only in transform and alpha. The screens hold the hooks' start states. |
| ZoomingIconTransition.Jump | SpotDemo/ZoomingIconTransition.swift:160-162 | The animation block brings the stand-ins and the background root to the post phase. The stand-ins stay visible and opaque, with their colour and image. When the post phase is Final (on a push), the colored stand-in keeps its size and is only scaled and moved. It moves no other real view and leaves the children alone. The screens reach the hooks' end states. |
| ZoomingIconTransition.RemoveStandIns | SpotDemo/ZoomingIconTransition.swift:170-171 | Both stand-ins leave the container and the store. Nothing else changes. |
| ZoomingIconTransition.Restore | SpotDemo/ZoomingIconTransition.swift:173-180 | The four participant views are shown again and the foreground root gets its saved colour back. No other view, the keys, the children and the container colour change. |
| ZoomingIconTransition.Complete | SpotDemo/ZoomingIconTransition.swift:164-182 | Completion, whether or not the animation finished: the background root's transform is reset but not its alpha, the four views are shown, and the foreground colour is restored. No other real view changes. The stand-ins are gone, and completion is reported as `!cancelled`. |
| ZoomingIconTransition.Animate | SpotDemo/ZoomingIconTransition.swift:160-183 | After the animation and completion, the background root keeps the post phase's alpha (0 after a push, 1 after a pop). Everything else is as the completion block leaves it. |
| ZoomingIconTransition.Run | SpotDemo/ZoomingIconTransition.swift:115-183 | Once the views are known, the transition leaves every real view as it found it, except that the four participants are shown and the background root ends untransformed, at alpha 0 after a push and 1 after a pop. The container is white with the two roots on top. |
| ZoomingIconTransition.AnimateTransition | SpotDemo/ZoomingIconTransition.swift:80-184 | The transition succeeds iff all four views are found. Otherwise it aborts, with the store unchanged, on the first trapping accessor, else the first nil view, image views before colored views. On success it ends as `Run` states, reports `!cancelled`, and both screens end at their hooks' end states. |
| ZoomingIconTransition.AnimationController | SpotDemo/ZoomingIconTransition.swift:188-199 | The delegate vends the animator iff both controllers conform, and only then records the operation. Otherwise it returns nil and leaves the recorded operation as it was. |
| ZoomingIconViewController.ColoredViewFor | SpotDemo/ZoomingIconTransition.swift:106-107 | The optional cast yields nil for a controller that does not conform. The menu answers with its own accessor's result, and the detail screen with its colored-view outlet. |
| ZoomingIconViewController.ImageViewFor | SpotDemo/ZoomingIconTransition.swift:96-97 | The optional cast yields nil for a controller that does not conform. The menu answers with its own accessor's result, and the detail screen with its image-view outlet. |
| ZoomingIconViewController.WillAnimate | SpotDemo/ZoomingIconTransition.swift:204-210 | The optional hook leaves a screen's root and participant views as they were. Only the detail screen implements it, putting its labels at the animation's start and changing nothing else about the screen. |
| ZoomingIconViewController.DidAnimate | SpotDemo/DetailViewController.swift:69-72 | At the end of the hook's animation the detail screen's labels are at the end state. Nothing else about the screen changes, and other screens are untouched. |
| TransitionLaws.PushThenPop | SpotDemo/ZoomingIconTransition.swift:87-93 | A push followed by the pop from the pushed screen runs iff the push does. The push leaves the background root at alpha 0. After the pop every real view is as before, except that the participants are shown and the root is untransformed and opaque. The container is as the push left it. A detail screen's labels end on screen after the push and off screen after the pop. |
| TransitionLaws.PushThenPopAtRest | SpotDemo/ZoomingIconTransition.swift:164-182 | From a store at rest (root untransformed and opaque, participants shown), a push and a pop restore every real view exactly. |
| TransitionLaws.PopThenPush | SpotDemo/ZoomingIconTransition.swift:87-93 | A pop back from a pushed screen followed by the push to it again runs iff the pop does. The pop leaves the background root at alpha 1. After the push every real view is as before, except that the participants are shown and the root is untransformed and transparent. The container is as the pop left it. A detail screen's labels end off screen after the pop and on screen after the push. |
| TransitionLaws.PopThenPushAtRest | SpotDemo/ZoomingIconTransition.swift:164-182 | From a store as a push leaves it (root untransformed and transparent, participants shown), a pop and a push restore every real view exactly. |
| TransitionLaws.RestackIdempotent | SpotDemo/ZoomingIconTransition.swift:133-136 | Stacking the same two screens again after a completed transition leaves the container's order unchanged. |
| TransitionLaws.NoLeftovers | SpotDemo/ZoomingIconTransition.swift:118 | A container that held nothing but the two roots ends with exactly background then foreground root. |
| ViewTree.AddSubviewOnTop | SpotDemo/ZoomingIconTransition.swift:118 | After `addSubview(v)`, `v` is on top and occurs once. Every other view occurs as often as before. |
| ViewTree.AddSubviewsStack | SpotDemo/ZoomingIconTransition.swift:133-136 | Adding distinct views one by one puts them on top in that order, with the rest below in their old order. |
| ViewTree.RemoveFromSuperview | SpotDemo/ZoomingIconTransition.swift:170 | The view is no longer a child. Every other child occurs as often as before. |
| MenuViewController.ItemIndex | SpotDemo/MenuViewController.swift:82-86 | The loop computes the items of all earlier sections plus the item number. |
| MenuViewController.SectionTotals | SpotDemo/MenuViewController.swift:62-75 | Section 0 holds two items and section 1 three. A section holds items exactly when it is one of the two declared sections. Together they hold five items, one fewer than the catalogue. |
| MenuViewController.SectionStartPastLast | SpotDemo/MenuViewController.swift:62-75 | With two sections of 2 and 3 items, every section from the third on starts after all five items. |
| MenuViewController.FlatIndexInRange | SpotDemo/MenuViewController.swift:29-37 | Every valid index path maps into the first five of the six catalogue entries. |
| MenuViewController.FlatIndexInjective | SpotDemo/MenuViewController.swift:82-88 | Distinct valid index paths show distinct items. |
| MenuViewController.FlatIndexOnto | SpotDemo/MenuViewController.swift:68-74 | Each of the first five items is shown by some valid index path. |
| MenuViewController.CellForItem | SpotDemo/MenuViewController.swift:77-92 | A cell shows the catalogue entry at the flat index. The lookup traps on a negative section or an index outside the catalogue. A valid index path never traps and never shows the sixth entry. Item 0 of any section past the last reads the sixth entry instead of trapping, and any later item there traps. |
| MenuViewController.DidSelectItem | SpotDemo/MenuViewController.swift:129-143 | Selection records the index path first. It then hands over the item that cell configuration shows for the same path. |
| MenuViewController.InsetForSection | SpotDemo/MenuViewController.swift:148-161 | Top is 0 and bottom is 40. Left equals right. For a non-empty section, the two insets plus the cells and gaps fill the collection width. For an empty section, the insets add up to the width plus one gap. |
| MenuViewController.RowWidthClosedForm | SpotDemo/MenuViewController.swift:156 | `n` cells and `n - 1` gaps laid side by side take the width of the closed formula. |
| MenuViewController.ColoredViewFor | SpotDemo/MenuViewController.swift:164-172 | Nil exactly when nothing is selected. It traps exactly when the selected cell is not on screen, and otherwise returns that cell's colored view. |
| MenuViewController.ImageViewFor | SpotDemo/MenuViewController.swift:174-182 | Nil exactly when nothing is selected. It traps exactly when the selected cell is not on screen, and otherwise returns that cell's image view. |
| DetailViewController.SetupState | SpotDemo/DetailViewController.swift:51-61 | The initial layout is (-64, -200), with both labels off screen. Otherwise it is (20, 80), with both on screen. |
| DetailViewController.LabelAnimationFor | SpotDemo/DetailViewController.swift:65-73 | A push slides the labels from (-64, -200) to (20, 80) after 0.2 seconds. A pop slides them from (20, 80) back to (-64, -200) at once. Any other operation keeps them at (20, 80). Every run lasts 0.6 seconds. |
| DetailViewController.PopReversesPush | SpotDemo/DetailViewController.swift:67-71 | A pop's label motion is a push's reversed. Neither depends on the screen's role. |
| DetailViewController.ColoredViewFor | SpotDemo/DetailViewController.swift:81-83 | Always the colored-view outlet, whatever the screen's state. |
| DetailViewController.ImageViewFor | SpotDemo/DetailViewController.swift:85-87 | Always the image-view outlet, whatever the screen's state. |
| DetailViewController.ViewDidLoad | SpotDemo/DetailViewController.swift:30-48 | With an item, it shows the item's colour, image, name and summary. Without one, it shows gray and no image or texts. |

## Left out

- Rendering is not modelled:
  - a snapshot's pixels are stood in for by a copy of the view's colour and size;
  - the image copy's intrinsic size and `contentMode` are left out, because both phases overwrite its frame;
  - `layoutIfNeeded` is left out.
- Coordinate conversion is a parameter and is never computed.
- The two stand-ins are the fixed nodes `ColoredSnapshot` and `ImageSnapshot`, reused by every transition. In UIKit each transition makes two new objects, so a stand-in left over from an earlier transition would be a different view; in the model it would be the same node. The model's own completion always removes both, so this state does not arise from its transitions.
- The spring interpolation, damping and velocity are left out. Only the end state of the animation block is modelled.
- Asynchrony is left out. The completion block runs once, right after the jump, and cancellation is its boolean input.
- `viewControllerForKey` cannot return nil in the model: the two controllers are given.
- Storyboard instantiation, the navigation controller's push and pop, and cell dequeueing are left out. `cell.item = item` is modelled only as the item the method returns.
- The menu's `viewDidLoad` content inset, the status-bar style and the back-button action are left out.
- SocialItemCell.swift is not part of this model. It only styles a cell and assigns outlets.
- The catalogue's summary texts are left out. They are prose, and no property depends on them.
- The unreachable `default:` branch of `configureViewsForState` has no counterpart, because the match over the two phases is exhaustive.
- A nil `backgroundColor` is not told apart from an explicit colour. The saved foreground colour is restored whatever it was.
- `configureViewsForState` reads the participant frames from the store as it was on entry. The source reads them live. The two differ only if a participant view were the background root itself, and a view's subview cannot be that.
- ZoomingIconTransition.AnimateTransition: requires that every view a screen hands out is in the store (`Live`), as Swift references always point at live views.
- ZoomingIconTransition.TransitionDuration: has no contract of its own. The 0.6-second duration is stated by ZoomAndLabelTiming.
- MenuViewController.ItemsInSection: has no contract of its own. Its counts of two and three, and zero for any other section, are stated by SectionTotals.
- MenuViewController.NumberOfSections: a constant. Its use is stated by SectionTotals.
- Geometry, colours and times (`CGFloat`, `NSTimeInterval`) are exact reals, without floating-point rounding. The inset equations of InsetForSection hold over the reals, and may be off by rounding on a device.
- DetailViewController.WillAnimate: has no contract of its own. What the hook does is stated by ZoomingIconViewController.WillAnimate and DidAnimate.
- DetailViewController.DidAnimate: has no contract of its own. Where the hook's animation ends is stated by ZoomingIconViewController.DidAnimate.

=== FILE: detail.dfy ===
/**
 * The detail screen: a large colored backdrop and image, a title, a summary
 * and a back button whose layout constraints slide the labels in and out
 * while the zoom runs.
 */
module DetailViewController {
  import opened Wrappers
  import opened Geometry
  import opened ViewTree
  import opened Navigation
  import opened SocialItems

  /** The constants of the back button's top constraint and the summary label's bottom constraint. */
  datatype LabelState = LabelState(backButtonTop: real, summaryBottom: real)

  datatype Detail = Detail(
    root: ViewRef,
    coloredView: ViewRef,
    imageView: ViewRef,
    item: Option<SocialItem>,
    labels: LabelState)

  const OffScreenLabels: LabelState := LabelState(-64.0, -200.0)
  const OnScreenLabels: LabelState := LabelState(20.0, 80.0)

  /** Both labels pushed past the screen edges. */
  predicate OffScreen(l: LabelState) {
    l.backButtonTop < 0.0 && l.summaryBottom < 0.0
  }

  /** Both labels inside the screen. */
  predicate OnScreen(l: LabelState) {
    l.backButtonTop > 0.0 && l.summaryBottom > 0.0
  }

  /** `setupState`: the off-screen constants for the initial layout, the on-screen ones otherwise. */
  function SetupState(initial: bool): (l: LabelState)
    ensures l == OffScreenLabels || l == OnScreenLabels
    ensures OffScreen(l) <==> initial
    ensures OnScreen(l) <==> !initial
  {
    if initial then OffScreenLabels else OnScreenLabels
  }

  const LabelDuration: real := 0.6
  const PushLabelDelay: real := 0.2

  /** One run of the label animation: where it starts, where it ends, and its timing. */
  datatype LabelAnimation = LabelAnimation(start: LabelState, end: LabelState, delay: real, duration: real)

  /**
   * The `willAnimateTransitionWithOperation` hook: labels slide in on a push
   * after a short delay, and slide out at once on a pop. The role of the
   * screen in the transition plays no part.
   */
  function LabelAnimationFor(op: Operation, isForeground: bool): (a: LabelAnimation)
    ensures a.duration == LabelDuration
    ensures op == Push ==> a.start == OffScreenLabels && a.end == OnScreenLabels && a.delay == PushLabelDelay
    ensures op == Pop ==> a.start == OnScreenLabels && a.end == OffScreenLabels && a.delay == 0.0
    ensures op == NoOperation ==> a.start == OnScreenLabels && a.end == OnScreenLabels && a.delay == 0.0
    ensures op == Push ==> OffScreen(a.start) && OnScreen(a.end)
    ensures op == Pop ==> OnScreen(a.start) && OffScreen(a.end)
  {
    LabelAnimation(SetupState(op == Push), SetupState(op == Pop), if op == Push then PushLabelDelay else 0.0, LabelDuration)
  }

  /** A pop plays a push's label motion backwards, and neither depends on the screen's role. */
  lemma PopReversesPush(f1: bool, f2: bool)
    ensures LabelAnimationFor(Pop, f1).start == LabelAnimationFor(Push, f2).end
    ensures LabelAnimationFor(Pop, f1).end == LabelAnimationFor(Push, f2).start
    ensures LabelAnimationFor(Push, f1) == LabelAnimationFor(Push, f2)
    ensures LabelAnimationFor(Pop, f1) == LabelAnimationFor(Pop, f2)
  {
  }

  /** The hook's immediate effect: the labels jump to the animation's start. */
  function WillAnimate(d: Detail, op: Operation, isForeground: bool): Detail {
    d.(labels := LabelAnimationFor(op, isForeground).start)
  }

  /** The end of the hook's animation: the labels at its end state. */
  function DidAnimate(d: Detail, op: Operation, isForeground: bool): Detail {
    d.(labels := LabelAnimationFor(op, isForeground).end)
  }

  /** The outlets, whatever the screen's state. */
  function ColoredViewFor(d: Detail): (r: Access)
    ensures r == Found(d.coloredView)
  {
    Found(d.coloredView)
  }

  function ImageViewFor(d: Detail): (r: Access)
    ensures r == Found(d.imageView)
  {
    Found(d.imageView)
  }

  /** What `viewDidLoad` puts on screen. */
  datatype Content = Content(
    coloredBackground: Color,
    image: Option<string>,
    title: Option<string>,
    summary: Option<string>)

  /** `viewDidLoad`: the item's colour, image and texts, or gray and nothing without an item. */
  function ViewDidLoad(d: Detail): (c: Content)
    ensures d.item.Some? ==> c.coloredBackground == d.item.value.color && c.image == d.item.value.image
    ensures d.item.Some? ==> c.title == Some(d.item.value.name) && c.summary == Some(d.item.value.summary)
    ensures d.item.None? ==> c == Content(Gray, None, None, None)
  {
    match d.item
    case Some(item) => Content(item.color, item.image, Some(item.name), Some(item.summary))
    case None => Content(Gray, None, None, None)
  }
}

=== FILE: geometry.dfy ===
/**
 * Plane geometry and the visual attributes the zoom transition touches.
 * Coordinates are exact reals; the source uses CGFloat.
 */
module Geometry {

  datatype Point = Point(x: real, y: real)

  datatype Size = Size(width: real, height: real)

  datatype Rect = Rect(origin: Point, size: Size)

  datatype EdgeInsets = EdgeInsets(top: real, left: real, bottom: real, right: real)

  /** The midpoint of a rectangle. */
  function Center(r: Rect): Point {
    Point(r.origin.x + r.size.width / 2.0, r.origin.y + r.size.height / 2.0)
  }

  /** The rectangle of size `s` whose midpoint is `c`. */
  function CenteredAt(c: Point, s: Size): (r: Rect)
    ensures Center(r) == c && r.size == s
  {
    Rect(Point(c.x - s.width / 2.0, c.y - s.height / 2.0), s)
  }

  /** The two affine transforms the transition uses. */
  datatype Transform = Identity | Scale(k: real)

  /** The size a transform gives to bounds of size `s`. */
  function Apply(t: Transform, s: Size): Size {
    match t
    case Identity => s
    case Scale(k) => Size(k * s.width, k * s.height)
  }

  datatype Color = Clear | White | Gray | Rgb(red: real, green: real, blue: real, alpha: real)
}

=== FILE: menu.dfy ===
/**
 * The menu screen: a collection view of two sections (two and three
 * circular icons) backed by a flat catalogue of six items, and its side of
 * the zoom transition's participant contract.
 */
module MenuViewController {
  import opened Wrappers
  import opened Geometry
  import opened ViewTree
  import opened SocialItems

  datatype IndexPath = IndexPath(section: int, item: int)

  /** The two outlets of a visible collection-view cell. */
  datatype Cell = Cell(coloredView: ViewRef, imageView: ViewRef)

  /**
   * The menu's state: its root view, the index path last selected, and the
   * cells the collection view currently shows.
   */
  datatype Menu = Menu(root: ViewRef, selectedIndexPath: Option<IndexPath>, cells: map<IndexPath, Cell>)

  const NumberOfSections: int := 2

  /** The catalogue. Its summary texts are not reproduced. */
  const Items: seq<SocialItem> := [
    SocialItem(Some("boston-icon"), Rgb(130.0 / 255.0, 209.0 / 255.0, 216.0 / 255.0, 1.0), "Boston", ""),
    SocialItem(Some("nyc-icon"), Rgb(3.0 / 255.0, 50.0 / 255.0, 81.0 / 255.0, 1.0), "New York City", ""),
    SocialItem(Some("icon-twitter"), Rgb(0.255, 0.557, 0.910, 1.0), "Twitter", ""),
    SocialItem(Some("icon-facebook"), Rgb(0.239, 0.353, 0.588, 1.0), "Facebook", ""),
    SocialItem(Some("icon-youtube"), Rgb(0.729, 0.188, 0.180, 1.0), "Youtube", ""),
    SocialItem(Some("icon-vimeo"), Rgb(0.329, 0.737, 0.988, 1.0), "Vimeo", "")
  ]

  function ItemsInSection(section: int): nat {
    if section == 0 then 2 else if section == 1 then 3 else 0
  }

  /** The two declared sections hold two and three items, no other section holds any, and together they hold one item fewer than the catalogue. */
  lemma SectionTotals(section: int)
    ensures ItemsInSection(section) > 0 <==> 0 <= section < NumberOfSections
    ensures ItemsInSection(0) == 2 && ItemsInSection(1) == 3
    ensures SectionStart(NumberOfSections) == |Items| - 1
  {
  }

  /** An index path the collection view can hand out: an existing section and an item inside it. */
  predicate Valid(p: IndexPath) {
    0 <= p.section < NumberOfSections && 0 <= p.item < ItemsInSection(p.section)
  }

  /** How many items all sections before `section` hold together. */
  function SectionStart(section: nat): nat {
    if section == 0 then 0 else SectionStart(section - 1) + ItemsInSection(section - 1)
  }

  /** The catalogue position of the item at `p`: the items of earlier sections, then `p.item`. */
  function FlatIndex(p: IndexPath): int
    requires p.section >= 0
  {
    SectionStart(p.section) + p.item
  }

  /** Every section from the last one on starts after all five items. */
  lemma {:induction false} SectionStartPastLast(section: nat)
    requires section >= NumberOfSections
    ensures SectionStart(section) == 5
  {
    if section > NumberOfSections {
      SectionStartPastLast(section - 1);
    } else {
      assert SectionStart(1) == 2;
    }
  }

  /**
   * The loop shared by cell configuration and selection. Swift's `0..<section`
   * traps on a negative section, so callers check that first.
   */
  method ItemIndex(p: IndexPath) returns (index: int)
    requires p.section >= 0
    ensures index == FlatIndex(p)
  {
    index := 0;
    var s := 0;
    while s < p.section
      invariant 0 <= s <= p.section
      invariant index == SectionStart(s)
    {
      index := index + ItemsInSection(s);
      s := s + 1;
    }
    index := index + p.item;
  }

  /** Every valid index path lands in the first five catalogue entries. */
  lemma FlatIndexInRange(p: IndexPath)
    requires Valid(p)
    ensures 0 <= FlatIndex(p) < 5 < |Items|
  {
  }

  /** Distinct cells show distinct items. */
  lemma FlatIndexInjective(p: IndexPath, q: IndexPath)
    requires Valid(p) && Valid(q) && FlatIndex(p) == FlatIndex(q)
    ensures p == q
  {
  }

  /** Each of the first five catalogue entries is shown by some cell. */
  lemma FlatIndexOnto(k: int)
    requires 0 <= k < 5
    ensures exists p :: Valid(p) && FlatIndex(p) == k
  {
    if k < 2 {
      assert Valid(IndexPath(0, k)) && FlatIndex(IndexPath(0, k)) == k;
    } else {
      assert Valid(IndexPath(1, k - 2)) && FlatIndex(IndexPath(1, k - 2)) == k;
    }
  }

  /**
   * `cellForItemAtIndexPath`: the item a cell shows, or `None` where the
   * Swift code traps: a negative section in the loop's range, or an index
   * outside the catalogue.
   */
  method CellForItem(p: IndexPath) returns (item: Option<SocialItem>)
    ensures item.Some? <==> p.section >= 0 && 0 <= FlatIndex(p) < |Items|
    ensures item.Some? ==> item.value == Items[FlatIndex(p)]
    ensures Valid(p) ==> item.Some? && item.value.name != Items[5].name
    ensures p.section >= NumberOfSections && p.item == 0 ==> item == Some(Items[5])
    ensures p.section >= NumberOfSections && p.item >= 1 ==> item.None?
  {
    if p.section < 0 {
      return None;
    }
    if p.section >= NumberOfSections {
      SectionStartPastLast(p.section);
    }
    var index := ItemIndex(p);
    if 0 <= index < |Items| {
      item := Some(Items[index]);
    } else {
      item := None;
    }
  }

  /**
   * `didSelectItemAtIndexPath`: records the selection first, then hands the
   * item the cell shows to the detail screen it pushes (`None` where the
   * lookup traps).
   */
  method DidSelectItem(m: Menu, p: IndexPath) returns (m': Menu, pushed: Option<SocialItem>)
    ensures m'.selectedIndexPath == Some(p)
    ensures m'.root == m.root && m'.cells == m.cells
    ensures pushed.Some? <==> p.section >= 0 && 0 <= FlatIndex(p) < |Items|
    ensures pushed.Some? ==> pushed.value == Items[FlatIndex(p)]
    ensures Valid(p) ==> pushed.Some? && pushed.value.name != Items[5].name
  {
    m' := m.(selectedIndexPath := Some(p));
    if p.section < 0 {
      return m', None;
    }
    var index := ItemIndex(p);
    if 0 <= index < |Items| {
      pushed := Some(Items[index]);
    } else {
      pushed := None;
    }
  }

  datatype FlowLayout = FlowLayout(itemWidth: real, minimumInteritemSpacing: real)

  /** The width `n` cells and the `n - 1` gaps between them take up in a row. */
  function RowWidth(layout: FlowLayout, n: nat): real
    requires n >= 1
  {
    if n == 1 then layout.itemWidth
    else RowWidth(layout, n - 1) + layout.minimumInteritemSpacing + layout.itemWidth
  }

  /**
   * `insetForSectionAtIndex`: centres the section's row of cells
   * horizontally. For an empty section the formula counts minus one gap.
   */
  function InsetForSection(layout: FlowLayout, collectionWidth: real, section: int): (r: EdgeInsets)
    ensures r.top == 0.0 && r.bottom == 40.0
    ensures r.left == r.right
    ensures ItemsInSection(section) >= 1 ==>
      r.left + RowWidth(layout, ItemsInSection(section)) + r.right == collectionWidth
    ensures ItemsInSection(section) == 0 ==> r.left + r.right == collectionWidth + layout.minimumInteritemSpacing
  {
    var n := ItemsInSection(section);
    var widthOfCells := (n as real) * layout.itemWidth + ((n - 1) as real) * layout.minimumInteritemSpacing;
    var inset := (collectionWidth - widthOfCells) / 2.0;
    assert n >= 1 ==> RowWidth(layout, n) == widthOfCells by {
      if n >= 1 {
        RowWidthClosedForm(layout, n);
      }
    }
    EdgeInsets(0.0, inset, 40.0, inset)
  }

  lemma {:induction false} RowWidthClosedForm(layout: FlowLayout, n: nat)
    requires n >= 1
    ensures RowWidth(layout, n) == (n as real) * layout.itemWidth + ((n - 1) as real) * layout.minimumInteritemSpacing
  {
    if n > 1 {
      RowWidthClosedForm(layout, n - 1);
    }
  }

  /** The colored view of the selected cell: nil without a selection, a trap if that cell is not on screen. */
  function ColoredViewFor(m: Menu): (r: Access)
    ensures r == Nil <==> m.selectedIndexPath.None?
    ensures r.Found? <==> m.selectedIndexPath.Some? && m.selectedIndexPath.value in m.cells
    ensures r == Trapped <==> m.selectedIndexPath.Some? && m.selectedIndexPath.value !in m.cells
    ensures r.Found? ==> r.ref == m.cells[m.selectedIndexPath.value].coloredView
  {
    match m.selectedIndexPath
    case None => Nil
    case Some(p) => if p in m.cells then Found(m.cells[p].coloredView) else Trapped
  }

  /** The image view of the selected cell, under the same rules. */
  function ImageViewFor(m: Menu): (r: Access)
    ensures r == Nil <==> m.selectedIndexPath.None?
    ensures r.Found? <==> m.selectedIndexPath.Some? && m.selectedIndexPath.value in m.cells
    ensures r == Trapped <==> m.selectedIndexPath.Some? && m.selectedIndexPath.value !in m.cells
    ensures r.Found? ==> r.ref == m.cells[m.selectedIndexPath.value].imageView
  {
    match m.selectedIndexPath
    case None => Nil
    case Some(p) => if p in m.cells then Found(m.cells[p].imageView) else Trapped
  }
}

=== FILE: navigation.dfy ===
/** The navigation controller's operation kinds, as passed to its delegate. */
module Navigation {

  datatype Operation = NoOperation | Push | Pop
}

=== FILE: participant.dfy ===
/**
 * The `ZoomingIconViewController` protocol: a screen takes part in the zoom
 * by exposing its colored view and its image view, and may implement the
 * optional pre-animation hook. Only the menu and the detail screen conform;
 * any other screen stands for a controller that does not.
 */
module ZoomingIconViewController {
  import opened ViewTree
  import opened Navigation
  import Menus = MenuViewController
  import Details = DetailViewController

  datatype Screen =
    | MenuScreen(menu: Menus.Menu)
    | DetailScreen(detail: Details.Detail)
    | OtherScreen(view: ViewRef)

  /** The controller's root view. */
  function Root(s: Screen): ViewRef {
    match s
    case MenuScreen(m) => m.root
    case DetailScreen(d) => d.root
    case OtherScreen(v) => v
  }

  predicate Conforms(s: Screen) {
    !s.OtherScreen?
  }

  /** The colored view a screen offers; the optional cast yields nil for a screen that does not conform. */
  function ColoredViewFor(s: Screen): (r: Access)
    ensures !Conforms(s) ==> r == Nil
    ensures s.MenuScreen? ==> r == Menus.ColoredViewFor(s.menu)
    ensures s.DetailScreen? ==> r == Found(s.detail.coloredView)
  {
    match s
    case MenuScreen(m) => Menus.ColoredViewFor(m)
    case DetailScreen(d) => Details.ColoredViewFor(d)
    case OtherScreen(_) => Nil
  }

  /** The image view a screen offers, under the same dispatch. */
  function ImageViewFor(s: Screen): (r: Access)
    ensures !Conforms(s) ==> r == Nil
    ensures s.MenuScreen? ==> r == Menus.ImageViewFor(s.menu)
    ensures s.DetailScreen? ==> r == Found(s.detail.imageView)
  {
    match s
    case MenuScreen(m) => Menus.ImageViewFor(m)
    case DetailScreen(d) => Details.ImageViewFor(d)
    case OtherScreen(_) => Nil
  }

  /** Two screen states that offer the same root and the same participant views. */
  predicate SameWiring(a: Screen, b: Screen) {
    Root(a) == Root(b) && Conforms(a) == Conforms(b)
    && ColoredViewFor(a) == ColoredViewFor(b) && ImageViewFor(a) == ImageViewFor(b)
  }

  /** The optional hook, called just before the zoom starts; only the detail screen implements it. */
  function WillAnimate(s: Screen, op: Operation, isForeground: bool): (r: Screen)
    ensures SameWiring(r, s)
    ensures s.DetailScreen? ==> r.DetailScreen? && r.detail.labels == Details.LabelAnimationFor(op, isForeground).start
    ensures s.DetailScreen? ==> r == DetailScreen(s.detail.(labels := Details.LabelAnimationFor(op, isForeground).start))
    ensures !s.DetailScreen? ==> r == s
  {
    match s
    case DetailScreen(d) => DetailScreen(Details.WillAnimate(d, op, isForeground))
    case _ => s
  }

  /** Where the hook's own animation ends. */
  function DidAnimate(s: Screen, op: Operation, isForeground: bool): (r: Screen)
    ensures SameWiring(r, s)
    ensures s.DetailScreen? ==> r.DetailScreen? && r.detail.labels == Details.LabelAnimationFor(op, isForeground).end
    ensures s.DetailScreen? ==> r == DetailScreen(s.detail.(labels := Details.LabelAnimationFor(op, isForeground).end))
    ensures !s.DetailScreen? ==> r == s
  {
    match s
    case DetailScreen(d) => DetailScreen(Details.DidAnimate(d, op, isForeground))
    case _ => s
  }

  /** Every view the screen can hand out is a live view of the store, as Swift references always are. */
  predicate Live(w: World, s: Screen) {
    && Real(Root(s)) in w.views
    && (ColoredViewFor(s).Found? ==> Real(ColoredViewFor(s).ref) in w.views)
    && (ImageViewFor(s).Found? ==> Real(ImageViewFor(s).ref) in w.views)
  }
}

=== FILE: social_item.dfy ===
/** The record handed from the menu to the detail screen; it has no behaviour. */
module SocialItems {
  import opened Wrappers
  import opened Geometry

  datatype SocialItem = SocialItem(image: Option<string>, color: Color, name: string, summary: string)
}

=== FILE: transition.dfy ===
/**
 * The zoom transition between two participant screens, as a pipeline of
 * pure steps over the view store: resolve roles from the navigation
 * operation, fetch the four participant views (aborting before any change
 * if one is missing), build and stack the two stand-ins, hide the real
 * views, apply the pre phase, jump to the post phase (the spring animation
 * collapsed to one step), and clean up in the one completion call.
 */
module ZoomingIconTransition {
  import opened Wrappers
  import opened Geometry
  import opened ViewTree
  import opened Navigation
  import opened ZoomingIconViewController
  import Details = DetailViewController

  const TransitionDurationSeconds: real := 0.6
  const ZoomedScale: real := 15.0
  const BackgroundScale: real := 0.8

  /** The animator object; `operation` is what the navigation delegate last recorded. */
  datatype Transition = Transition(operation: Operation)

  datatype Phase = Initial | Final

  /** The matched pair of a screen's colored view and image view. */
  datatype ZoomingViews = ZoomingViews(coloredView: ViewRef, imageView: ViewRef)

  datatype Participants = Participants(background: ZoomingViews, foreground: ZoomingViews)

  /** The screen zoomed away from, and the screen zoomed into. */
  datatype Roles = Roles(background: Screen, foreground: Screen)

  datatype Role = Background | Foreground
  datatype Part = ColoredPart | ImagePart

  /** Why setup stops: an accessor trapped, or a required view was nil. */
  datatype Abort = Crashed(role: Role, part: Part) | Missing(role: Role, part: Part)

  /**
   * Conversion into the container's coordinates of a rectangle or point
   * given in the superview of the named view. UIKit computes it; here it is
   * a parameter.
   */
  datatype Space = Space(rect: (Rect, ViewRef) -> Rect, point: (Point, ViewRef) -> Point)

  datatype Timing = Timing(duration: real, delay: real)

  /** One transition in flight: roles, participant views, the saved foreground colour and the store. */
  datatype Session = Session(operation: Operation, roles: Roles, views: Participants, savedColor: Color, world: World)

  /** The store after cleanup, the screens' final states, and what was reported to the host. */
  datatype Completion = Completion(world: World, roles: Roles, completed: bool)

  /** The delegate's answer (an animator or nil) and the animator's state afterwards. */
  datatype Vended = Vended(animator: Option<Transition>, state: Transition)

  // ----- timing -----

  /** `transitionDuration`: the context plays no part. */
  function TransitionDuration(t: Transition): real {
    TransitionDurationSeconds
  }

  /** The timing of the zoom's own animation block. */
  function ZoomTiming(t: Transition): Timing {
    Timing(TransitionDuration(t), 0.0)
  }

  /**
   * The zoom always starts at once and lasts the transition duration; the
   * labels last as long, and start later than the zoom exactly on a push.
   */
  lemma ZoomAndLabelTiming(t: Transition, isForeground: bool)
    ensures ZoomTiming(t).duration == TransitionDurationSeconds && ZoomTiming(t).delay == 0.0
    ensures ZoomTiming(t).duration == Details.LabelAnimationFor(t.operation, isForeground).duration
    ensures Details.LabelAnimationFor(t.operation, isForeground).delay > ZoomTiming(t).delay <==> t.operation == Push
  {
  }

  // ----- roles and phases -----

  /** Background is the screen left and foreground the screen entered, except on a pop, where they swap. */
  function ResolveRoles(op: Operation, from: Screen, to: Screen): (r: Roles)
    ensures op != Pop ==> r.background == from && r.foreground == to
    ensures op == Pop ==> r.background == to && r.foreground == from
  {
    if op == Pop then Roles(to, from) else Roles(from, to)
  }

  function Opposite(p: Phase): Phase {
    match p
    case Initial => Final
    case Final => Initial
  }

  /** The phase applied before the animation and the one it animates to. */
  function Phases(op: Operation): (r: (Phase, Phase))
    ensures r.1 == Opposite(r.0)
    ensures r.0 == Initial <==> op != Pop
  {
    if op == Pop then (Final, Initial) else (Initial, Final)
  }

  // ----- fetching the participant views -----

  predicate AllFound(roles: Roles) {
    && ImageViewFor(roles.background).Found?
    && ImageViewFor(roles.foreground).Found?
    && ColoredViewFor(roles.background).Found?
    && ColoredViewFor(roles.foreground).Found?
  }

  /** What the accessor for one part of one role's screen answers. */
  function Asked(roles: Roles, role: Role, part: Part): Access {
    var s := if role == Background then roles.background else roles.foreground;
    if part == ImagePart then ImageViewFor(s) else ColoredViewFor(s)
  }

  /** The abort is what that accessor's answer leads to: a trap inside it, or a nil view. */
  predicate Fails(roles: Roles, e: Abort) {
    Asked(roles, e.role, e.part) == if e.Crashed? then Trapped else Nil
  }

  /**
   * The order in which the source meets the eight ways to stop: both image
   * accessors are called before either is checked for nil, and the colored
   * views only after both image views are there; background before
   * foreground throughout.
   */
  function Precedence(e: Abort): nat {
    (if e.part == ImagePart then 0 else 4) + (if e.Crashed? then 0 else 2) + (if e.role == Background then 0 else 1)
  }

  /**
   * Asks both screens for their views, image views first, and stops at the
   * first accessor that traps or view that is nil, in the source's order.
   */
  function Fetch(roles: Roles): (r: Result<Participants, Abort>)
    ensures r.Success? <==> AllFound(roles)
    ensures r.Failure? ==> Fails(roles, r.error)
    ensures r.Failure? ==> forall e :: Precedence(e) < Precedence(r.error) ==> !Fails(roles, e)
    ensures r.Failure? && r.error.part == ColoredPart ==>
      ImageViewFor(roles.background).Found? && ImageViewFor(roles.foreground).Found?
    ensures r.Success? ==> r.value == Participants(
      ZoomingViews(ColoredViewFor(roles.background).ref, ImageViewFor(roles.background).ref),
      ZoomingViews(ColoredViewFor(roles.foreground).ref, ImageViewFor(roles.foreground).ref))
    ensures !(ImageViewFor(roles.background).Found? && ImageViewFor(roles.foreground).Found?) ==>
      r.Failure? && r.error.part == ImagePart
  {
    var backImage := ImageViewFor(roles.background);
    var frontImage := ImageViewFor(roles.foreground);
    if backImage.Trapped? then Failure(Crashed(Background, ImagePart))
    else if frontImage.Trapped? then Failure(Crashed(Foreground, ImagePart))
    else if backImage.Nil? then Failure(Missing(Background, ImagePart))
    else if frontImage.Nil? then Failure(Missing(Foreground, ImagePart))
    else
      var backColored := ColoredViewFor(roles.background);
      var frontColored := ColoredViewFor(roles.foreground);
      if backColored.Trapped? then Failure(Crashed(Background, ColoredPart))
      else if frontColored.Trapped? then Failure(Crashed(Foreground, ColoredPart))
      else if backColored.Nil? then Failure(Missing(Background, ColoredPart))
      else if frontColored.Nil? then Failure(Missing(Foreground, ColoredPart))
      else Success(Participants(
        ZoomingViews(backColored.ref, backImage.ref),
        ZoomingViews(frontColored.ref, frontImage.ref)))
  }

  // ----- nodes the transition works on -----

  function BackNode(roles: Roles): Node {
    Real(Root(roles.background))
  }

  function FrontNode(roles: Roles): Node {
    Real(Root(roles.foreground))
  }

  const StandIns: set<Node> := {ColoredSnapshot, ImageSnapshot}

  /** The four real views the stand-ins replace while the zoom runs. */
  function Hidden(v: Participants): set<Node> {
    {Real(v.background.coloredView), Real(v.foreground.coloredView),
     Real(v.background.imageView), Real(v.foreground.imageView)}
  }

  predicate Present(w: World, roles: Roles, v: Participants) {
    && BackNode(roles) in w.views
    && FrontNode(roles) in w.views
    && Hidden(v) <= w.views.Keys
  }

  /** A session whose store holds every view the remaining steps touch. */
  predicate Ready(s: Session) {
    && Present(s.world, s.roles, s.views)
    && ColoredSnapshot in s.world.views
    && ImageSnapshot in s.world.views
    && s.world.views[ImageSnapshot].transform == Identity
  }

  /** A ready session whose two stand-ins are on show in place of the hidden participants. */
  predicate InFlight(s: Session) {
    && Ready(s)
    && OnShow(s.world.views[ColoredSnapshot])
    && OnShow(s.world.views[ImageSnapshot])
  }

  // ----- stand-ins and stacking -----

  /** The colored stand-in: a visible, untransformed copy of what the view shows, at the origin. */
  function SnapshotOf(v: View): (s: View)
    ensures !s.hidden && s.transform == Identity && s.alpha == 1.0
    ensures s.backgroundColor == v.backgroundColor && s.bounds == v.bounds
  {
    View(false, Identity, 1.0, v.backgroundColor, Point(v.bounds.width / 2.0, v.bounds.height / 2.0), v.bounds, None)
  }

  /** The image stand-in: a fresh, visible image view showing the same image. */
  function ImageCopyOf(v: View): (s: View)
    ensures !s.hidden && s.transform == Identity && s.alpha == 1.0 && s.image == v.image
  {
    View(false, Identity, 1.0, Clear, Point(0.0, 0.0), Size(0.0, 0.0), v.image)
  }

  /** Back to front: background screen, colored stand-in, foreground screen, image stand-in. */
  function PaintOrder(bg: ViewRef, fg: ViewRef): seq<Node> {
    [Real(bg), ColoredSnapshot, Real(fg), ImageSnapshot]
  }

  function Stacking(bg: ViewRef, fg: ViewRef): set<Node> {
    {Real(bg), ColoredSnapshot, Real(fg), ImageSnapshot}
  }

  lemma PaintOrderElements(bg: ViewRef, fg: ViewRef)
    requires bg != fg
    ensures NoDuplicates(PaintOrder(bg, fg))
    ensures Elements(PaintOrder(bg, fg)) == Stacking(bg, fg)
  {
    var order := PaintOrder(bg, fg);
    forall x ensures x in Elements(order) <==> x in Stacking(bg, fg) {
      ElementsMember(order, x);
    }
  }

  /**
   * The container's children after the background screen is added for the
   * snapshot and the four views are then added in paint order: those four on
   * top, back to front, each once, the rest below in their old order.
   */
  function Stacked(xs: seq<Node>, bg: ViewRef, fg: ViewRef): (r: seq<Node>)
    ensures bg != fg ==> r == Without(xs, Stacking(bg, fg)) + PaintOrder(bg, fg)
    ensures bg != fg && NoDuplicates(xs) ==> NoDuplicates(r)
  {
    StackedOrder(xs, bg, fg);
    AddSubviews(AddSubview(xs, Real(bg)), PaintOrder(bg, fg))
  }

  lemma StackedOrder(xs: seq<Node>, bg: ViewRef, fg: ViewRef)
    ensures bg != fg ==>
      AddSubviews(AddSubview(xs, Real(bg)), PaintOrder(bg, fg)) == Without(xs, Stacking(bg, fg)) + PaintOrder(bg, fg)
    ensures bg != fg && NoDuplicates(xs) ==> NoDuplicates(Without(xs, Stacking(bg, fg)) + PaintOrder(bg, fg))
  {
    if bg != fg {
      PaintOrderElements(bg, fg);
      RepeatedAddSubview(xs, Real(bg), PaintOrder(bg, fg));
      if NoDuplicates(xs) {
        StackKeepsNoDuplicates(xs, PaintOrder(bg, fg));
      }
    }
  }

  /** Adding `v` once more before stacking a sequence that contains it makes no difference. */
  lemma RepeatedAddSubview(xs: seq<Node>, v: Node, order: seq<Node>)
    requires NoDuplicates(order) && v in Elements(order)
    ensures AddSubviews(AddSubview(xs, v), order) == Without(xs, Elements(order)) + order
  {
    var all := Elements(order);
    AddSubviewsStack(AddSubview(xs, v), order);
    WithoutConcat(Without(xs, {v}), [v], all);
    assert Without([v], all) == [] by {
      assert [v][1..] == [];
    }
    WithoutTwice(xs, {v}, all);
    assert {v} + all == all;
    assert Without(AddSubview(xs, v), all) == Without(xs, all);
  }

  lemma StackKeepsNoDuplicates(xs: seq<Node>, order: seq<Node>)
    requires NoDuplicates(xs) && NoDuplicates(order)
    ensures NoDuplicates(Without(xs, Elements(order)) + order)
  {
    var all := Elements(order);
    var r := Without(xs, all) + order;
    WithoutCounts(xs, all);
    forall x | x in r ensures multiset(r)[x] <= 1 {
      ElementsMember(order, x);
      assert multiset(r)[x] == multiset(Without(xs, all))[x] + multiset(order)[x];
    }
  }

  /** Taking the stand-ins back out leaves the two screens on top, background below foreground. */
  lemma UnstackedOrder(xs: seq<Node>, bg: ViewRef, fg: ViewRef)
    requires bg != fg
    ensures Without(Stacked(xs, bg, fg), StandIns) == Without(xs, Stacking(bg, fg)) + [Real(bg), Real(fg)]
  {
    var all := Stacking(bg, fg);
    WithoutConcat(Without(xs, all), PaintOrder(bg, fg), StandIns);
    WithoutTwice(xs, all, StandIns);
    assert all + StandIns == all;
    PaintOrderUnstacked(bg, fg);
  }

  lemma PaintOrderUnstacked(bg: ViewRef, fg: ViewRef)
    ensures Without(PaintOrder(bg, fg), StandIns) == [Real(bg), Real(fg)]
  {
    var p := PaintOrder(bg, fg);
    assert Without(p[3..], StandIns) == [] by {
      assert p[3..][1..] == [];
    }
    assert Without(p[2..], StandIns) == [Real(fg)] by {
      assert p[2..][1..] == p[3..];
    }
    assert Without(p[1..], StandIns) == [Real(fg)] by {
      assert p[1..][1..] == p[2..];
    }
    assert p[1..][0] == ColoredSnapshot;
  }

  // ----- setup -----

  /** Sets `hidden` on the four real participant views. */
  function HideAll(w: World, v: Participants, h: bool): (r: World)
    requires Hidden(v) <= w.views.Keys
    ensures r.children == w.children && r.background == w.background
    ensures r.views.Keys == w.views.Keys
    ensures forall n :: n in Hidden(v) ==> r.views[n] == w.views[n].(hidden := h)
    ensures forall n :: n in w.views && n !in Hidden(v) ==> r.views[n] == w.views[n]
  {
    w.(views := map m | m in w.views :: if m in Hidden(v) then w.views[m].(hidden := h) else w.views[m])
  }

  /** What setup does to one real view: hide it if it is a participant, clear it if it is the foreground root. */
  function SetUpView(u: View, n: Node, roles: Roles, v: Participants): View {
    u.(hidden := if n in Hidden(v) then true else u.hidden,
       backgroundColor := if n == FrontNode(roles) then Clear else u.backgroundColor)
  }

  /**
   * Snapshots, hides the real views, paints the container white, stacks the
   * views in paint order, and clears the foreground screen's colour; returns
   * the store and the saved colour.
   */
  function Setup(w: World, roles: Roles, v: Participants): (r: (World, Color))
    requires Present(w, roles, v)
    ensures r.0.views.Keys == w.views.Keys + StandIns
    ensures r.0.views[ColoredSnapshot] == SnapshotOf(w.views[Real(v.background.coloredView)])
    ensures r.0.views[ImageSnapshot] == ImageCopyOf(w.views[Real(v.background.imageView)])
    ensures r.1 == w.views[FrontNode(roles)].backgroundColor
    ensures r.0.background == White
    ensures r.0.children == Stacked(w.children, Root(roles.background), Root(roles.foreground))
  {
    var fg := FrontNode(roles);
    var colored := SnapshotOf(w.views[Real(v.background.coloredView)]);
    var image := ImageCopyOf(w.views[Real(v.background.imageView)]);
    var copies := w.(views := w.views[ColoredSnapshot := colored][ImageSnapshot := image]);
    var hidden := HideAll(copies, v, true);
    var stacked := hidden.(background := White, children := Stacked(w.children, Root(roles.background), Root(roles.foreground)));
    var saved := stacked.views[fg].backgroundColor;
    (SetColor(stacked, fg, Clear), saved)
  }

  /** Setup changes each real view only by hiding the participants and clearing the foreground root. */
  lemma SetupRealViews(w: World, roles: Roles, v: Participants)
    requires Present(w, roles, v)
    ensures forall m :: m in w.views && m.Real? ==> Setup(w, roles, v).0.views[m] == SetUpView(w.views[m], m, roles, v)
  {
  }

  // ----- the two phases -----

  /** What a phase promises about the background root and the stand-ins, with frames read from `ref`. */
  predicate Shows(phase: Phase, u: World, bgRoot: ViewRef, v: Participants, ref: World, sp: Space)
    requires Real(bgRoot) in u.views && ColoredSnapshot in u.views && ImageSnapshot in u.views
    requires Hidden(v) <= ref.views.Keys
  {
    var root := u.views[Real(bgRoot)];
    var colored := u.views[ColoredSnapshot];
    var image := u.views[ImageSnapshot];
    var bc, bi, fi := v.background.coloredView, v.background.imageView, v.foreground.imageView;
    match phase
    case Initial =>
      && root.transform == Identity && root.alpha == 1.0
      && colored.transform == Identity
      && Frame(colored) == sp.rect(Frame(ref.views[Real(bc)]), bc)
      && Frame(image) == sp.rect(Frame(ref.views[Real(bi)]), bi)
    case Final =>
      && root.transform == Scale(BackgroundScale) && root.alpha == 0.0
      && colored.transform == Scale(ZoomedScale)
      && Center(Frame(colored)) == sp.point(ref.views[Real(fi)].center, fi)
      && Frame(image) == sp.rect(Frame(ref.views[Real(fi)]), fi)
  }

  /**
   * `configureViewsForState`: the same for both directions. The frames it
   * converts are read from its input store.
   */
  function Configure(phase: Phase, w: World, bgRoot: ViewRef, v: Participants, sp: Space): (r: World)
    requires Real(bgRoot) in w.views && ColoredSnapshot in w.views && ImageSnapshot in w.views
    requires Hidden(v) <= w.views.Keys
    requires w.views[ImageSnapshot].transform == Identity
    ensures r.views.Keys == w.views.Keys
    ensures Shows(phase, r, bgRoot, v, w, sp)
    ensures r.children == w.children && r.background == w.background
    ensures r.views[ImageSnapshot].transform == Identity
    ensures phase == Final ==> r.views[ColoredSnapshot].bounds == w.views[ColoredSnapshot].bounds
    ensures SameLook(r.views[ColoredSnapshot], w.views[ColoredSnapshot])
    ensures SameLook(r.views[ImageSnapshot], w.views[ImageSnapshot])
    ensures forall m :: m in w.views && m.Real? && m != Real(bgRoot) ==> r.views[m] == w.views[m]
    ensures r.views[Real(bgRoot)] == w.views[Real(bgRoot)].(transform := r.views[Real(bgRoot)].transform,
                                                           alpha := r.views[Real(bgRoot)].alpha)
  {
    var bc, bi, fi := v.background.coloredView, v.background.imageView, v.foreground.imageView;
    var root := w.views[Real(bgRoot)];
    var colored := w.views[ColoredSnapshot];
    var image := w.views[ImageSnapshot];
    match phase
    case Initial =>
      w.(views := w.views
        [Real(bgRoot) := root.(transform := Identity, alpha := 1.0)]
        [ColoredSnapshot := WithFrame(colored.(transform := Identity), sp.rect(Frame(w.views[Real(bc)]), bc))]
        [ImageSnapshot := WithFrame(image, sp.rect(Frame(w.views[Real(bi)]), bi))])
    case Final =>
      w.(views := w.views
        [Real(bgRoot) := root.(transform := Scale(BackgroundScale), alpha := 0.0)]
        [ColoredSnapshot := WithCenter(colored.(transform := Scale(ZoomedScale)), sp.point(w.views[Real(fi)].center, fi))]
        [ImageSnapshot := WithFrame(image, sp.rect(Frame(w.views[Real(fi)]), fi))])
  }

  /** A phase reads only the placement of the participant views, so stores that agree on it agree on the phase. */
  lemma ShowsReadsPlacement(phase: Phase, u: World, bgRoot: ViewRef, v: Participants, ref1: World, ref2: World, sp: Space)
    requires Real(bgRoot) in u.views && ColoredSnapshot in u.views && ImageSnapshot in u.views
    requires Hidden(v) <= ref1.views.Keys && Hidden(v) <= ref2.views.Keys
    requires forall n :: n in Hidden(v) ==> SamePlacement(ref1.views[n], ref2.views[n])
    requires Shows(phase, u, bgRoot, v, ref1, sp)
    ensures Shows(phase, u, bgRoot, v, ref2, sp)
  {
  }

  // ----- the transition in flight -----

  /**
   * Steps 3 to 5 of `animateTransition` once the views are known: set up,
   * apply the pre phase (its frames measured before anything moved), run
   * both screens' hooks.
   */
  method Prepare(op: Operation, w: World, roles: Roles, v: Participants, sp: Space) returns (s: Session)
    requires Present(w, roles, v)
    ensures s.operation == op && s.views == v
    ensures s.roles == Roles(WillAnimate(roles.background, op, false), WillAnimate(roles.foreground, op, true))
    ensures InFlight(s)
    ensures s.world.views.Keys == w.views.Keys + StandIns
    ensures s.world.children == Stacked(w.children, Root(roles.background), Root(roles.foreground))
    ensures s.world.background == White
    ensures s.savedColor == w.views[FrontNode(roles)].backgroundColor
    ensures OnShow(s.world.views[ColoredSnapshot]) && OnShow(s.world.views[ImageSnapshot])
    ensures s.world.views[ColoredSnapshot].backgroundColor == w.views[Real(v.background.coloredView)].backgroundColor
    ensures s.world.views[ImageSnapshot].image == w.views[Real(v.background.imageView)].image
    ensures Phases(op).0 == Final ==> s.world.views[ColoredSnapshot].bounds == w.views[Real(v.background.coloredView)].bounds
    ensures Shows(Phases(op).0, s.world, Root(roles.background), v, w, sp)
    ensures forall m :: m in w.views && m.Real? && m != BackNode(roles) ==>
      s.world.views[m] == SetUpView(w.views[m], m, roles, v)
    ensures var bg := BackNode(roles);
      s.world.views[bg] == SetUpView(w.views[bg], bg, roles, v).(
        transform := s.world.views[bg].transform, alpha := s.world.views[bg].alpha)
  {
    var (prepared, saved) := Setup(w, roles, v);
    SetupRealViews(w, roles, v);
    var configured := Configure(Phases(op).0, prepared, Root(roles.background), v, sp);
    forall n | n in Hidden(v) ensures SamePlacement(prepared.views[n], w.views[n]) {
    }
    ShowsReadsPlacement(Phases(op).0, configured, Root(roles.background), v, prepared, w, sp);
    s := Session(op, Roles(WillAnimate(roles.background, op, false), WillAnimate(roles.foreground, op, true)), v, saved, configured);
  }

  /** The animation block collapsed to its end: the post phase, and the end of the hooks' own animations. */
  method Jump(s: Session, sp: Space) returns (r: Session)
    requires InFlight(s)
    ensures InFlight(r)
    ensures r.operation == s.operation && r.views == s.views && r.savedColor == s.savedColor
    ensures r.roles == Roles(DidAnimate(s.roles.background, s.operation, false), DidAnimate(s.roles.foreground, s.operation, true))
    ensures r.world.views.Keys == s.world.views.Keys
    ensures OnShow(r.world.views[ColoredSnapshot]) && OnShow(r.world.views[ImageSnapshot])
    ensures SameLook(r.world.views[ColoredSnapshot], s.world.views[ColoredSnapshot])
    ensures SameLook(r.world.views[ImageSnapshot], s.world.views[ImageSnapshot])
    ensures Phases(s.operation).1 == Final ==> r.world.views[ColoredSnapshot].bounds == s.world.views[ColoredSnapshot].bounds
    ensures Shows(Phases(s.operation).1, r.world, Root(s.roles.background), s.views, s.world, sp)
    ensures r.world.children == s.world.children && r.world.background == s.world.background
    ensures forall m :: m in s.world.views && m.Real? && m != BackNode(s.roles) ==> r.world.views[m] == s.world.views[m]
    ensures r.world.views[BackNode(s.roles)] == s.world.views[BackNode(s.roles)].(
      transform := r.world.views[BackNode(s.roles)].transform, alpha := r.world.views[BackNode(s.roles)].alpha)
  {
    var op := s.operation;
    var world := Configure(Phases(op).1, s.world, Root(s.roles.background), s.views, sp);
    r := Session(op, Roles(DidAnimate(s.roles.background, op, false), DidAnimate(s.roles.foreground, op, true)), s.views, s.savedColor, world);
  }

  /** What the completion block does to one real view. */
  function TearDownView(u: View, n: Node, roles: Roles, v: Participants, saved: Color): View {
    u.(hidden := if n in Hidden(v) then false else u.hidden,
       backgroundColor := if n == FrontNode(roles) then saved else u.backgroundColor,
       transform := if n == BackNode(roles) then Identity else u.transform)
  }

  /** What the completion block does to one real view after the transform reset: show it if a participant, recolour the foreground root. */
  function RestoredView(u: View, n: Node, roles: Roles, v: Participants, saved: Color): View {
    u.(hidden := if n in Hidden(v) then false else u.hidden,
       backgroundColor := if n == FrontNode(roles) then saved else u.backgroundColor)
  }

  /** The completion block's `hidden = false` on the four participants and the restored foreground colour. */
  method Restore(w: World, roles: Roles, v: Participants, saved: Color) returns (r: World)
    requires Present(w, roles, v)
    ensures r.views.Keys == w.views.Keys && r.children == w.children && r.background == w.background
    ensures forall n :: n in w.views ==> r.views[n] == RestoredView(w.views[n], n, roles, v, saved)
  {
    var shown := HideAll(w, v, false);
    r := SetColor(shown, FrontNode(roles), saved);
  }

  /** Both stand-ins' `removeFromSuperview`: out of the container and out of the store. */
  method RemoveStandIns(w: World) returns (r: World)
    ensures r.views.Keys == w.views.Keys - StandIns
    ensures forall m :: m in r.views ==> r.views[m] == w.views[m]
    ensures r.children == Without(w.children, StandIns) && r.background == w.background
  {
    WithoutTwice(w.children, {ColoredSnapshot}, {ImageSnapshot});
    assert {ColoredSnapshot} + {ImageSnapshot} == StandIns;
    r := w.(children := RemoveFromSuperview(RemoveFromSuperview(w.children, ColoredSnapshot), ImageSnapshot),
            views := w.views - StandIns);
  }

  /**
   * The completion block, run whether or not the animation finished: reset
   * the background's transform (not its alpha), drop both stand-ins, show
   * the real views, restore the foreground colour, report `!cancelled`.
   */
  method Complete(s: Session, cancelled: bool) returns (c: Completion)
    requires Ready(s)
    ensures c.roles == s.roles && c.completed == !cancelled
    ensures c.world.views.Keys == s.world.views.Keys - StandIns
    ensures c.world.children == Without(s.world.children, StandIns)
    ensures c.world.background == s.world.background
    ensures forall m :: m in s.world.views && m.Real? ==>
      c.world.views[m] == TearDownView(s.world.views[m], m, s.roles, s.views, s.savedColor)
  {
    var w := s.world;
    var bg, fg := BackNode(s.roles), FrontNode(s.roles);
    var reset := w.(views := w.views[bg := w.views[bg].(transform := Identity)]);
    var removed := RemoveStandIns(reset);
    var u := Restore(removed, s.roles, s.views, s.savedColor);
    forall m | m in w.views && m.Real?
      ensures u.views[m] == TearDownView(w.views[m], m, s.roles, s.views, s.savedColor)
    {
      var x := if m == bg then w.views[m].(transform := Identity) else w.views[m];
      assert removed.views[m] == x;
    }
    c := Completion(u, s.roles, !cancelled);
  }

  /**
   * The animation block and its completion, for a prepared session: the
   * background root ends at the post phase's alpha, and the completion
   * block does the rest.
   */
  method Animate(s: Session, sp: Space, cancelled: bool) returns (c: Completion)
    requires InFlight(s)
    ensures c.completed == !cancelled
    ensures c.roles == Roles(DidAnimate(s.roles.background, s.operation, false), DidAnimate(s.roles.foreground, s.operation, true))
    ensures c.world.views.Keys == s.world.views.Keys - StandIns
    ensures c.world.children == Without(s.world.children, StandIns) && c.world.background == s.world.background
    ensures forall m :: m in s.world.views && m.Real? && m != BackNode(s.roles) ==>
      c.world.views[m] == TearDownView(s.world.views[m], m, s.roles, s.views, s.savedColor)
    ensures var bg := BackNode(s.roles);
      c.world.views[bg] == TearDownView(s.world.views[bg], bg, s.roles, s.views, s.savedColor).(
        alpha := if s.operation == Pop then 1.0 else 0.0)
  {
    var j := Jump(s, sp);
    assert BackNode(j.roles) == BackNode(s.roles) && FrontNode(j.roles) == FrontNode(s.roles);
    c := Complete(j, cancelled);
  }

  /** A real view as the transition leaves it: shown if it is one of the four participants, otherwise as it was. */
  function Revealed(u: View, n: Node, v: Participants): View {
    u.(hidden := if n in Hidden(v) then false else u.hidden)
  }

  /**
   * Everything `animateTransition` does once the four views are known: the
   * store ends as it started, except that the four participant views are
   * shown and the background root ends untransformed, at alpha 0 after a
   * push and 1 after a pop. The container ends white, with both screens'
   * roots on top, background below foreground, and the stand-ins gone.
   */
  method Run(op: Operation, w: World, roles: Roles, v: Participants, sp: Space, cancelled: bool) returns (c: Completion)
    requires Present(w, roles, v)
    ensures c.completed == !cancelled
    ensures c.roles == Roles(
      DidAnimate(WillAnimate(roles.background, op, false), op, false),
      DidAnimate(WillAnimate(roles.foreground, op, true), op, true))
    ensures c.world.views.Keys == w.views.Keys - StandIns
    ensures c.world.background == White
    ensures var bg, fg := Root(roles.background), Root(roles.foreground);
      bg != fg ==> c.world.children == Without(w.children, Stacking(bg, fg)) + [Real(bg), Real(fg)]
    ensures forall m :: m in w.views && m.Real? && m != BackNode(roles) ==> c.world.views[m] == Revealed(w.views[m], m, v)
    ensures var bg := BackNode(roles);
      c.world.views[bg] == Revealed(w.views[bg], bg, v).(transform := Identity, alpha := if op == Pop then 1.0 else 0.0)
  {
    var s := Prepare(op, w, roles, v, sp);
    assert BackNode(s.roles) == BackNode(roles) && FrontNode(s.roles) == FrontNode(roles);
    c := Animate(s, sp, cancelled);
    forall m | m in w.views && m.Real? && m != BackNode(roles)
      ensures c.world.views[m] == Revealed(w.views[m], m, v)
    {
      assert s.world.views[m] == SetUpView(w.views[m], m, roles, v);
    }
    if Root(roles.background) != Root(roles.foreground) {
      UnstackedOrder(w.children, Root(roles.background), Root(roles.foreground));
    }
  }

  /**
   * `animateTransition`: resolve the roles, fetch the four views, abort
   * before changing anything if one is missing, and otherwise run the zoom.
   * `after` is the store once the call is over.
   */
  method AnimateTransition(t: Transition, from: Screen, to: Screen, w: World, sp: Space, cancelled: bool)
    returns (r: Result<Completion, Abort>, after: World)
    requires Live(w, from) && Live(w, to)
    ensures var roles := ResolveRoles(t.operation, from, to);
      && (r.Success? <==> AllFound(roles))
      && (r.Failure? ==> r.error == Fetch(roles).error && after == w)
      && (r.Success? ==> after == r.value.world)
    ensures r.Success? ==>
      var op := t.operation;
      var roles := ResolveRoles(op, from, to);
      var v := Fetch(roles).value;
      var c := r.value;
      var bg, fg := Root(roles.background), Root(roles.foreground);
      && c.completed == !cancelled
      && c.roles == Roles(
           DidAnimate(WillAnimate(roles.background, op, false), op, false),
           DidAnimate(WillAnimate(roles.foreground, op, true), op, true))
      && c.world.views.Keys == w.views.Keys - StandIns
      && c.world.background == White
      && (bg != fg ==> c.world.children == Without(w.children, Stacking(bg, fg)) + [Real(bg), Real(fg)])
      && (forall m :: m in w.views && m.Real? && m != Real(bg) ==> c.world.views[m] == Revealed(w.views[m], m, v))
      && c.world.views[Real(bg)] == Revealed(w.views[Real(bg)], Real(bg), v).(
           transform := Identity, alpha := if op == Pop then 1.0 else 0.0)
  {
    var roles := ResolveRoles(t.operation, from, to);
    var fetched := Fetch(roles);
    if fetched.Failure? {
      return Failure(fetched.error), w;
    }
    var c := Run(t.operation, w, roles, fetched.value, sp, cancelled);
    return Success(c), c.world;
  }

  // ----- the navigation delegate -----

  /**
   * `animationControllerForOperation`: vend the animator and record the
   * operation when both screens conform; otherwise decline and change nothing.
   */
  function AnimationController(t: Transition, op: Operation, from: Screen, to: Screen): (r: Vended)
    ensures r.animator.Some? <==> Conforms(from) && Conforms(to)
    ensures r.animator.Some? ==> r.animator.value == r.state && r.state.operation == op
    ensures r.animator.None? ==> r.state == t
  {
    if Conforms(from) && Conforms(to) then Vended(Some(Transition(op)), Transition(op))
    else Vended(None, t)
  }
}

=== FILE: transition_laws.dfy ===
/**
 * What a push followed by the matching pop does, and a pop followed by the
 * matching push: the second transition zooms the same two screens back, in
 * the same roles, and the pair leaves the store as it found it apart from
 * the participants' visibility.
 */
module TransitionLaws {
  import opened Wrappers
  import opened Geometry
  import opened ViewTree
  import opened Navigation
  import opened ZoomingIconViewController
  import opened ZoomingIconTransition
  import Details = DetailViewController

  /** The two completions of a push and the pop that undoes it. */
  datatype RoundTrip = RoundTrip(pushed: Completion, popped: Completion)

  /** Taking the stand-ins and the two roots out again after they were put on top undoes nothing further. */
  lemma RestackIdempotent(xs: seq<Node>, bg: ViewRef, fg: ViewRef)
    requires bg != fg
    ensures Without(Without(xs, Stacking(bg, fg)) + [Real(bg), Real(fg)], Stacking(bg, fg)) + [Real(bg), Real(fg)]
         == Without(xs, Stacking(bg, fg)) + [Real(bg), Real(fg)]
  {
    var all := Stacking(bg, fg);
    WithoutConcat(Without(xs, all), [Real(bg), Real(fg)], all);
    WithoutTwice(xs, all, all);
    assert all + all == all;
    WithoutEverything([Real(bg), Real(fg)], all);
  }

  /** If the container held nothing but the two screens' roots, it ends with exactly those two, background first. */
  lemma NoLeftovers(xs: seq<Node>, bg: ViewRef, fg: ViewRef)
    requires forall x :: x in xs ==> x == Real(bg) || x == Real(fg)
    ensures Without(xs, Stacking(bg, fg)) + [Real(bg), Real(fg)] == [Real(bg), Real(fg)]
  {
    WithoutEverything(xs, Stacking(bg, fg));
  }

  /** Accessors that agree give the same fetch. */
  lemma FetchReadsWiring(r1: Roles, r2: Roles)
    requires SameWiring(r1.background, r2.background) && SameWiring(r1.foreground, r2.foreground)
    ensures Fetch(r1) == Fetch(r2)
  {
  }

  /**
   * A store as a transition leaves it: the background root untransformed at
   * `alpha` (1 with the menu on show, 0 with it covered by a pushed screen),
   * and the four participants shown.
   */
  predicate AtRest(w: World, bg: Node, v: Participants, alpha: real)
    requires bg in w.views && Hidden(v) <= w.views.Keys
  {
    w.views[bg].transform == Identity && w.views[bg].alpha == alpha
    && forall n :: n in Hidden(v) ==> !w.views[n].hidden
  }

  /** At rest, showing the participants and resetting the root to the same alpha changes no view. */
  lemma RevealedAtRest(w: World, bg: Node, v: Participants, alpha: real)
    requires bg in w.views && Hidden(v) <= w.views.Keys && AtRest(w, bg, v, alpha)
    ensures forall m :: m in w.views ==> Revealed(w.views[m], m, v) == w.views[m]
    ensures Revealed(w.views[bg], bg, v).(transform := Identity, alpha := alpha) == w.views[bg]
  {
  }

  /**
   * Push from `a` to `b`, then pop back from `b` to `a` on the store the
   * push left. Either the push aborts, or both transitions run, with the
   * same roles; after the pop every real view is as it was except that the
   * participants are shown and the background root is untransformed and
   * opaque again, the container holds the two roots as after the push, and
   * a detail screen's labels have slid in and out again.
   */
  method PushThenPop(a: Screen, b: Screen, w: World, sp: Space, c1: bool, c2: bool)
    returns (r: Result<RoundTrip, Abort>)
    requires Live(w, a) && Live(w, b)
    ensures r.Success? <==> AllFound(Roles(a, b))
    ensures r.Failure? ==> r.error == Fetch(Roles(a, b)).error
    ensures r.Success? ==>
      var v := Fetch(Roles(a, b)).value;
      var p, q := r.value.pushed, r.value.popped;
      var bg := Real(Root(a));
      && p.completed == !c1 && q.completed == !c2
      && p.world.views.Keys == w.views.Keys - StandIns
      && q.world.views.Keys == w.views.Keys - StandIns
      && p.world.views[bg].alpha == 0.0
      && (forall m :: m in w.views && m.Real? && m != bg ==> q.world.views[m] == Revealed(w.views[m], m, v))
      && q.world.views[bg] == Revealed(w.views[bg], bg, v).(transform := Identity, alpha := 1.0)
      && (Root(a) != Root(b) ==> q.world.children == p.world.children)
      && (b.DetailScreen? ==>
           && p.roles.foreground.DetailScreen? && Details.OnScreen(p.roles.foreground.detail.labels)
           && q.roles.foreground.DetailScreen? && Details.OffScreen(q.roles.foreground.detail.labels))
  {
    var pushed, _ := AnimateTransition(Transition(Push), a, b, w, sp, c1);
    if pushed.Failure? {
      return Failure(pushed.error);
    }
    var p := pushed.value;
    var back, front := p.roles.foreground, p.roles.background;
    assert SameWiring(front, a) && SameWiring(back, b);
    FetchReadsWiring(ResolveRoles(Pop, back, front), Roles(a, b));
    var popped, _ := AnimateTransition(Transition(Pop), back, front, p.world, sp, c2);
    var q := popped.value;
    if Root(a) != Root(b) {
      RestackIdempotent(w.children, Root(a), Root(b));
    }
    return Success(RoundTrip(p, q));
  }

  /** Pushed and popped from a store at rest, the pair gives back every real view exactly as it was. */
  method PushThenPopAtRest(a: Screen, b: Screen, w: World, sp: Space, c1: bool, c2: bool)
    returns (r: Result<RoundTrip, Abort>)
    requires Live(w, a) && Live(w, b)
    ensures r.Success? <==> AllFound(Roles(a, b))
    ensures r.Success? && AtRest(w, Real(Root(a)), Fetch(Roles(a, b)).value, 1.0) ==>
      && r.value.popped.world.views.Keys == w.views.Keys - StandIns
      && forall m :: m in w.views && m.Real? ==> r.value.popped.world.views[m] == w.views[m]
  {
    r := PushThenPop(a, b, w, sp, c1, c2);
    if r.Success? && AtRest(w, Real(Root(a)), Fetch(Roles(a, b)).value, 1.0) {
      RevealedAtRest(w, Real(Root(a)), Fetch(Roles(a, b)).value, 1.0);
    }
  }

  /**
   * The other half of the round trip: with `b` pushed over `a`, pop back to
   * `a` and push `b` again on the store the pop left. Either the pop aborts,
   * or both run with the same roles; afterwards every real view is as it was
   * except that the participants are shown and the background root is
   * untransformed and transparent again, the container holds the two roots
   * as after the pop, and a detail screen's labels have slid out and in again.
   */
  method PopThenPush(a: Screen, b: Screen, w: World, sp: Space, c1: bool, c2: bool)
    returns (r: Result<RoundTrip, Abort>)
    requires Live(w, a) && Live(w, b)
    ensures r.Success? <==> AllFound(Roles(a, b))
    ensures r.Failure? ==> r.error == Fetch(Roles(a, b)).error
    ensures r.Success? ==>
      var v := Fetch(Roles(a, b)).value;
      var p, q := r.value.popped, r.value.pushed;
      var bg := Real(Root(a));
      && p.completed == !c1 && q.completed == !c2
      && p.world.views.Keys == w.views.Keys - StandIns
      && q.world.views.Keys == w.views.Keys - StandIns
      && p.world.views[bg].alpha == 1.0
      && (forall m :: m in w.views && m.Real? && m != bg ==> q.world.views[m] == Revealed(w.views[m], m, v))
      && q.world.views[bg] == Revealed(w.views[bg], bg, v).(transform := Identity, alpha := 0.0)
      && (Root(a) != Root(b) ==> q.world.children == p.world.children)
      && (b.DetailScreen? ==>
           && p.roles.foreground.DetailScreen? && Details.OffScreen(p.roles.foreground.detail.labels)
           && q.roles.foreground.DetailScreen? && Details.OnScreen(q.roles.foreground.detail.labels))
  {
    var popped, _ := AnimateTransition(Transition(Pop), b, a, w, sp, c1);
    if popped.Failure? {
      return Failure(popped.error);
    }
    var p := popped.value;
    var back, front := p.roles.background, p.roles.foreground;
    assert SameWiring(back, a) && SameWiring(front, b);
    FetchReadsWiring(ResolveRoles(Push, back, front), Roles(a, b));
    var pushed, _ := AnimateTransition(Transition(Push), back, front, p.world, sp, c2);
    var q := pushed.value;
    if Root(a) != Root(b) {
      RestackIdempotent(w.children, Root(a), Root(b));
    }
    return Success(RoundTrip(q, p));
  }

  /** From a store as a push leaves it, pop then push gives back every real view exactly as it was. */
  method PopThenPushAtRest(a: Screen, b: Screen, w: World, sp: Space, c1: bool, c2: bool)
    returns (r: Result<RoundTrip, Abort>)
    requires Live(w, a) && Live(w, b)
    ensures r.Success? <==> AllFound(Roles(a, b))
    ensures r.Success? && AtRest(w, Real(Root(a)), Fetch(Roles(a, b)).value, 0.0) ==>
      && r.value.pushed.world.views.Keys == w.views.Keys - StandIns
      && forall m :: m in w.views && m.Real? ==> r.value.pushed.world.views[m] == w.views[m]
  {
    r := PopThenPush(a, b, w, sp, c1, c2);
    if r.Success? && AtRest(w, Real(Root(a)), Fetch(Roles(a, b)).value, 0.0) {
      RevealedAtRest(w, Real(Root(a)), Fetch(Roles(a, b)).value, 0.0);
    }
  }
}

=== FILE: view_tree.dfy ===
/**
 * The part of the UIKit view hierarchy the transition touches: a store of
 * view records addressed by node, the animation container's ordered
 * children (back to front), and the container's own background colour.
 */
module ViewTree {
  import opened Wrappers
  import opened Geometry

  /** Identity of a view that belongs to one of the screens. */
  type ViewRef = nat

  /** A node of the store: a real view, or one of the two stand-ins a transition creates. */
  datatype Node = Real(ref: ViewRef) | ColoredSnapshot | ImageSnapshot

  datatype View = View(
    hidden: bool,
    transform: Transform,
    alpha: real,
    backgroundColor: Color,
    center: Point,
    bounds: Size,
    image: Option<string>)

  /** What a participant accessor yields: nil, a view, or a runtime trap inside the accessor. */
  datatype Access = Nil | Found(ref: ViewRef) | Trapped

  datatype World = World(views: map<Node, View>, children: seq<Node>, background: Color)

  /** A view's frame in its superview: its bounds, transformed, centred on `center`. */
  function Frame(v: View): Rect {
    CenteredAt(v.center, Apply(v.transform, v.bounds))
  }

  /** Setting `frame` on an untransformed view moves its centre and resizes its bounds. */
  function WithFrame(v: View, r: Rect): (u: View)
    requires v.transform == Identity
    ensures Frame(u) == r
    ensures u.transform == v.transform && u.hidden == v.hidden && u.alpha == v.alpha
    ensures u.backgroundColor == v.backgroundColor && u.image == v.image
  {
    v.(center := Center(r), bounds := r.size)
  }

  /** Setting `center` moves a view without resizing it. */
  function WithCenter(v: View, c: Point): (u: View)
    ensures Center(Frame(u)) == c && Frame(u).size == Frame(v).size
    ensures u.transform == v.transform && u.bounds == v.bounds
    ensures u.hidden == v.hidden && u.alpha == v.alpha && u.backgroundColor == v.backgroundColor
  {
    v.(center := c)
  }

  /** Two view records agree on how they look, wherever they are: visibility, opacity, colour and image. */
  predicate SameLook(a: View, b: View) {
    a.hidden == b.hidden && a.alpha == b.alpha && a.backgroundColor == b.backgroundColor && a.image == b.image
  }

  /** A view on show: not hidden and fully opaque. */
  predicate OnShow(u: View) {
    !u.hidden && u.alpha == 1.0
  }

  /** Two view records agree on everything but `hidden` and `backgroundColor`. */
  predicate SamePlacement(a: View, b: View) {
    a.transform == b.transform && a.alpha == b.alpha && a.center == b.center
    && a.bounds == b.bounds && a.image == b.image
  }

  function SetColor(w: World, n: Node, c: Color): (r: World)
    requires n in w.views
    ensures r.children == w.children && r.background == w.background
    ensures r.views.Keys == w.views.Keys
    ensures r.views[n] == w.views[n].(backgroundColor := c)
    ensures forall m :: m in w.views && m != n ==> r.views[m] == w.views[m]
  {
    w.(views := w.views[n := w.views[n].(backgroundColor := c)])
  }

  // ----- the container's children -----

  /** The set of nodes occurring in `xs`. */
  function Elements(xs: seq<Node>): set<Node> {
    if xs == [] then {} else {xs[0]} + Elements(xs[1..])
  }

  lemma {:induction false} ElementsMember(xs: seq<Node>, x: Node)
    ensures x in Elements(xs) <==> x in xs
  {
    if xs != [] {
      ElementsMember(xs[1..], x);
      assert xs == [xs[0]] + xs[1..];
    }
  }

  predicate NoDuplicates(xs: seq<Node>) {
    forall x | x in xs :: multiset(xs)[x] <= 1
  }

  /** `xs` with every node of `s` taken out, the order of the rest kept. */
  function Without(xs: seq<Node>, s: set<Node>): (r: seq<Node>)
    ensures |r| <= |xs|
  {
    if xs == [] then [] else (if xs[0] in s then [] else [xs[0]]) + Without(xs[1..], s)
  }

  /** Taking out nodes keeps every other node's number of occurrences. */
  lemma {:induction false} WithoutCounts(xs: seq<Node>, s: set<Node>)
    ensures forall x :: multiset(Without(xs, s))[x] == if x in s then 0 else multiset(xs)[x]
  {
    if xs != [] {
      WithoutCounts(xs[1..], s);
      assert xs == [xs[0]] + xs[1..];
    }
  }

  /** `addSubview`: take `v` out of the children if it is there, then put it on top. */
  function AddSubview(xs: seq<Node>, v: Node): seq<Node> {
    Without(xs, {v}) + [v]
  }

  /** After `addSubview(v)`, `v` is on top and occurs once; every other view occurs as often as before. */
  lemma AddSubviewOnTop(xs: seq<Node>, v: Node)
    ensures var r := AddSubview(xs, v); |r| > 0 && r[|r| - 1] == v
    ensures multiset(AddSubview(xs, v))[v] == 1
    ensures forall x :: x != v ==> multiset(AddSubview(xs, v))[x] == multiset(xs)[x]
  {
    WithoutCounts(xs, {v});
  }

  /** `addSubview` for each of `vs`, in order. */
  function AddSubviews(xs: seq<Node>, vs: seq<Node>): seq<Node>
    decreases |vs|
  {
    if vs == [] then xs else AddSubviews(AddSubview(xs, vs[0]), vs[1..])
  }

  /** `removeFromSuperview` of `v`, seen from the container. */
  function RemoveFromSuperview(xs: seq<Node>, v: Node): (r: seq<Node>)
    ensures v !in r
    ensures forall x :: x != v ==> multiset(r)[x] == multiset(xs)[x]
  {
    WithoutCounts(xs, {v});
    Without(xs, {v})
  }

  lemma {:induction false} WithoutNothing(xs: seq<Node>)
    ensures Without(xs, {}) == xs
  {
    if xs != [] {
      WithoutNothing(xs[1..]);
      assert xs == [xs[0]] + xs[1..];
    }
  }

  lemma {:induction false} WithoutConcat(a: seq<Node>, b: seq<Node>, s: set<Node>)
    ensures Without(a + b, s) == Without(a, s) + Without(b, s)
  {
    if a == [] {
      assert a + b == b;
    } else {
      assert (a + b)[0] == a[0];
      assert (a + b)[1..] == a[1..] + b;
      WithoutConcat(a[1..], b, s);
    }
  }

  lemma {:induction false} WithoutTwice(xs: seq<Node>, s: set<Node>, t: set<Node>)
    ensures Without(Without(xs, s), t) == Without(xs, s + t)
  {
    if xs != [] {
      var h, tail := xs[0], xs[1..];
      var kept := if h in s then [] else [h];
      assert Without(xs, s) == kept + Without(tail, s);
      WithoutConcat(kept, Without(tail, s), t);
      WithoutTwice(tail, s, t);
      assert Without(kept, t) == (if h in s + t then [] else [h]) by {
        if h !in s {
          assert [h][1..] == [];
        }
      }
    }
  }

  /** The tail of a duplicate-free sequence is duplicate-free and does not contain the head. */
  lemma NoDuplicatesTail(vs: seq<Node>)
    requires vs != [] && NoDuplicates(vs)
    ensures NoDuplicates(vs[1..]) && vs[0] !in vs[1..]
  {
    assert vs == [vs[0]] + vs[1..];
    assert multiset(vs) == multiset([vs[0]]) + multiset(vs[1..]);
    assert multiset(vs)[vs[0]] <= 1;
    forall x | x in vs[1..] ensures multiset(vs[1..])[x] <= 1 {
      assert x in vs;
    }
  }

  /** Stacking distinct views puts them on top in order, each once, and keeps the rest in order below. */
  lemma {:induction false} AddSubviewsStack(xs: seq<Node>, vs: seq<Node>)
    requires NoDuplicates(vs)
    ensures AddSubviews(xs, vs) == Without(xs, Elements(vs)) + vs
    decreases |vs|
  {
    if vs == [] {
      WithoutNothing(xs);
      assert Elements(vs) == {};
    } else {
      var v, rest := vs[0], vs[1..];
      NoDuplicatesTail(vs);
      AddSubviewsStack(AddSubview(xs, v), rest);
      ElementsMember(rest, v);
      StackStep(xs, v, Elements(rest));
      assert vs == [v] + rest;
    }
  }

  /** One step of the stacking: `v` goes on top of what remains once the later views are taken out. */
  lemma StackStep(xs: seq<Node>, v: Node, later: set<Node>)
    requires v !in later
    ensures Without(AddSubview(xs, v), later) == Without(xs, {v} + later) + [v]
  {
    WithoutConcat(Without(xs, {v}), [v], later);
    WithoutTwice(xs, {v}, later);
    assert [v][1..] == [];
  }

  /** Taking out every node there is leaves nothing. */
  lemma WithoutEverything(xs: seq<Node>, s: set<Node>)
    requires forall x :: x in xs ==> x in s
    ensures Without(xs, s) == []
  {
    WithoutCounts(xs, s);
    var r := Without(xs, s);
    forall x ensures multiset(r)[x] == 0 {
      if x !in s {
        assert x !in xs;
      }
    }
    assert multiset(r) == multiset{};
    assert |r| == |multiset(r)|;
  }
}

=== FILE: wrappers.dfy ===
/** Optional and fallible values: the model's stand-in for Swift optionals and for a setup that aborts. */
module Wrappers {

  datatype Option<+T> = None | Some(value: T)

  datatype Result<+T, +E> = Success(value: T) | Failure(error: E)
}
